=== FILE: README.md ===
# chinadns plugin: a Dafny model

This project models the core of the `chinadns` plugin for CoreDNS. The plugin
answers each DNS query by asking two forwarders: a domestic ("cn") upstream group
and a fallback group. It writes the domestic reply back to the client only when
that reply has answers and the first decisive A/AAAA address in it geolocates to
`"CN"`. Otherwise it uses the fallback reply. The project also models how the
plugin's `chinadns` directives are validated and turned into upstream proxies.

- `wrappers.dfy` (module `Wrappers`): `Option` and `Result`, standing for Go's nil
  values and its `(value, error)` pairs.
- `handler.dfy` (module `Handler`, chinadns.go):
  - `IsChina` is the classification loop. Besides the verdict, it returns a ghost
    trace of the addresses it looked up.
  - `IsChina` is proved equal to the reference predicate `HasDomesticAddress`:
    some A/AAAA address looks up to exactly `"CN"`, and no lookup before it failed.
  - `ServeDns` is the selection rule once both replies are known. It returns the
    message written to the client (or none), plus the code and the error.
- `setup.dfy` (module `Setup`, setup.go):
  - `Controller` holds the parsed directives and the key-value store that
    `c.Set` writes (`"cn"`, `"fb"`).
  - `Proxy` and `TlsConfig` are classes. "Every TLS proxy shares one TLS
    configuration" is therefore a statement about object identity.
  - `ParseProxy`, `ParseBlock`, `ParseBlockLines`, `ParseDirective` and
    `ParseChinaDns` are the imperative parsers.
  - Their outcome is specified by the pure functions `ProxyError`,
    `ParseProperty`, `ParseProperties` and `ParseDirectives`. The lemmas are
    stated about these functions.

The host's token stream is abstracted:
- Each occurrence of the directive is a `Directive`. Its `args` are the tokens
  on its line, and its `block` has one `Property(name, args)` per block line.
- `parse.HostPortOrFile`, `parse.Transport` and `maxminddb.Open` are function
  parameters (`HostsFn`, `TransportFn`, `OpenFn`).
- The database's `Lookup` is the function held in `Reader`. It returns the ISO
  country code of the address, or an error.

Behaviour of the code as written that the model keeps:
- The multiple-database check tests whether the recorded path is non-empty
  (setup.go:51), not whether a directive was already seen. A first directive
  whose path token is the empty string therefore lets a second directive through.
  `DirectivesAccepted` states the exact rule: every accepted directive but the
  last names the empty path.
- `SecondDatabaseRejected` covers the usual case.
- A directive with no argument at all is reported as an argument error before
  the multiple-database check (setup.go:48-53).
- Several `fallback` lines, or several directives, overwrite the stored lists,
  so the last one wins.
- The classifier is fail-closed. The first failing lookup ends the scan with
  "not domestic", even if a later address would have matched `"CN"`.

## Model

| member | source | states |
|---|---|---|
| `Handler.IsChina` | chinadns.go:63-88 | The verdict is true iff some A/AAAA address, in answer order, looks up to exactly "CN" with no failed lookup before it. An empty answer list is therefore false. Only A/AAAA addresses are looked up, in order. Every lookup but the last gave a code other than "CN". The scan ends early only at a failed lookup or at "CN". |
| `Handler.ServeDns` | chinadns.go:48-58 | If the cn reply has a message with a non-empty answer section that is domestic, that message is written and the cn code and error are returned. Otherwise the fallback code and error are returned, and the fallback message is written exactly when it is non-nil. No geo lookup is made when the cn message is nil or has no answers. |
| `Handler.RrType` | chinadns.go:66 | A record's header type is A (1) or AAAA (28) exactly when the record is not an `Other` record. |
| `Handler.Address` | chinadns.go:66-73 | A record carries an address exactly when its header type is A (1) or AAAA (28). Every other type is `Other`, whose type can be neither. |
| `Handler.Addresses` | chinadns.go:64-73 | The extracted addresses are at most one per answer record. |
| `Handler.AddressesSound` | chinadns.go:64-73 | Every extracted address is the address of some A/AAAA record of the answer. |
| `Handler.AddressesComplete` | chinadns.go:64-73 | The address of every A/AAAA record of the answer is among the extracted addresses. |
| `Handler.CnPreferred` | chinadns.go:50 | When the cn reply is preferred, its message is non-nil, it has at least one A/AAAA address, and some address of it looks up to "CN". |
| `Handler.OtherRecordsIgnored` | chinadns.go:66-73 | Inserting a record that is neither A nor AAAA anywhere in an answer list changes neither the addresses looked up nor the verdict. |
| `Handler.LookupErrorFailsClosed` | chinadns.go:79-82 | Once an address's lookup fails, with every earlier lookup having continued the scan, no address of the list counts as domestic, whatever later lookups give. |
| `Handler.StopVerdict` | chinadns.go:79-85 | Where the scan stops, the trace is a prefix of the answer addresses. A final "CN" makes the answer domestic, and a final lookup error makes it not domestic. |
| `Handler.AddressesAppend` | chinadns.go:64-73 | The addresses extracted from two concatenated answer lists are the concatenation of the addresses extracted from each. |
| `Setup.Allowed` | setup.go:96 | The allowed-transport map accepts exactly "dns" and "tls"; any other key reads as false. |
| `Setup.ProxyError` | setup.go:88-103 | The upstream list is accepted iff it is non-empty, its host expansion succeeds, and every host's transport is allowed. A reported unsupported protocol is one that is not allowed. |
| `Setup.ParseProperty` | setup.go:73-84 | A block line is accepted iff its name is "fallback" and its upstream list is accepted. Then its (non-empty) arguments are the fallback list. |
| `Setup.ParseProperties` | setup.go:61-65 | On success, a fallback list is recorded unless the block is empty and none was recorded before. A list newly recorded by the block is non-empty. |
| `Setup.ParseDirectives` | setup.go:47-66 | Accepting at least one directive requires that no database path was recorded before it, and leaves a non-empty cn list recorded. Accepting no directive leaves the configuration as it was. |
| `Setup.FirstUnsupported` | setup.go:98-103 | Gives no index iff every host's transport is allowed. Otherwise it gives the first host whose transport is not allowed. |
| `Setup.ParseProxy` | setup.go:87-111 | An empty argument list is an argument error with no proxies. A host-expansion error is passed on. The first host with an unsupported transport fails with that transport and host. On success there is one proxy per host, in order, with the host's transport and address. Exactly the "tls" proxies carry a TLS config; it is the same object for all of them and its session cache is sized for the host list. |
| `Setup.Proxy.constructor` | setup.go:104 | A new proxy has the given address and transport and no TLS config. |
| `Setup.Proxy.SetTlsConfig` | setup.go:105-107 | Sets the proxy's TLS config to the given object. |
| `Setup.TlsConfig.constructor` | setup.go:97 | The shared TLS config's session cache has the given capacity. |
| `Setup.BlockAccepted` | setup.go:73-84 | A block is accepted only if every line is a "fallback" line with a valid upstream list. The last such line's arguments become the fallback list; an empty block keeps the earlier one. |
| `Setup.BlockAcceptedConverse` | setup.go:73-84 | Conversely, a block whose lines are all "fallback" lines with valid upstream lists is accepted. |
| `Setup.UnknownPropertyRejected` | setup.go:81-82 | The first block line whose name is not "fallback", after valid lines, fails with "unknown property" naming it. |
| `Setup.DirectivesAccepted` | setup.go:47-66 | In an accepted configuration, every directive has an argument and a valid cn upstream list, and every block line is a "fallback" line with a valid upstream list. Every directive but the last names the empty database path. The recorded path is the last directive's first argument, and its remaining arguments are the cn list. The recorded fallback list is the arguments of the last fallback line over all blocks, or the earlier list when no block has a line. |
| `Setup.DirectivesAcceptedConverse` | setup.go:47-66 | Conversely, directives that each have an argument, a valid cn list and only valid fallback lines are accepted when every one but the last names the empty path and no path was recorded before. |
| `Setup.SecondDatabaseRejected` | setup.go:48-53 | After an accepted directive with a non-empty database path, a further directive with an argument fails with "configuring multiple databases is not supported". |
| `Setup.Controller.ParseBlock` | setup.go:73-85 | A "fallback" line stores its proxies under "fb" and changes nothing else. A proxy error or an unknown property name is returned with the store unchanged. |
| `Setup.Controller.ParseBlockLines` | setup.go:61-65 | Parses the block lines in order and stops at the first error. On success "fb" holds the proxies of the last fallback line. For an empty block the whole store is unchanged. The stored cn proxies and the other keys are untouched. |
| `Setup.Controller.ParseDirective` | setup.go:48-65 | One pass of the directive loop. No argument is an argument error; an already recorded path is the multiple-database error. Then the cn upstream list is parsed and stored under "cn", and the block is parsed. The pass records the directive's first argument as the database path. An empty block leaves the "fb" entry as it was. |
| `Setup.Controller.ParseChinaDns` | setup.go:42-71 | The first error of the directives, in order, is returned. Otherwise the database at the recorded path is opened: an open error becomes a plugin error, and success gives a plugin holding the opened reader. On success "cn" and "fb" hold the proxies built from the recorded lists, and no other key changes. |

## Left out

- The goroutines, the one-slot channels and the `context` in `ServeDNS` are not modelled (chinadns.go:35-47). `ServeDns` starts from both replies, already received. Which forwarder finishes first, and a forwarder that never replies, are not modelled.
- `msgCopy := *msg` is a shallow copy, so both forwarders still share the message's record slices. Messages are values here, so that aliasing is not modelled.
- `forward.Forward`, the proxies' network behaviour, `nonwriter` and `writer.WriteMsg` are not modelled. A forwarder's reply is a `Reply` value, and the written message is an output value.
- maxminddb's file format, `Open` and `Lookup` are not modelled; they are the function parameters `OpenFn` and `Reader.lookup`. The real `Lookup` reports an address that is not in the database without an error and with an empty ISO code. Here that is whatever the lookup function returns.
- A record whose header type is A or AAAA but whose Go type is some other RR would make the source's type assertion panic. In the model each record's kind fixes whether it carries an address, so that panic is not modelled.
- `parse.HostPortOrFile` (which may read files) and `parse.Transport` are not modelled; they are the function parameters `HostsFn` and `TransportFn`. The LRU session cache is not modelled; only its capacity is recorded.
- `setup`, `init`, `plugin.Register`, `AddPlugin`, `OnStartup` and `OnShutdown` are not modelled (setup.go:15-40). Nor is the type assertion on `c.Get("fb")`, which fails when no fallback list is stored.
- `New()` and `Name()` are not modelled (chinadns.go:26-32, 61). They only allocate the forwarders and return a constant.
- Error texts are not modelled. Errors are variants of `SetupError` that carry the names and hosts the messages quote.

=== FILE: handler.dfy ===
/**
  The query handler of the chinadns plugin (chinadns.go): the classifier that
  decides whether an answer resolves to a Chinese address, and the rule that
  picks which of the two forwarders' replies is written back to the client.
 */
module Handler {
  import opened Wrappers

  /** An IP address as the bytes of `net.IP`. */
  type Ip = seq<bv8>

  /** A Go `error` value. */
  datatype Error = Error(message: string)

  /** The header type of a record that is neither A (type 1) nor AAAA (type 28). */
  type OtherType = t: bv16 | t != 1 && t != 28 witness 0

  /**
    An answer record, told apart by its header type: `A` (type 1) and `Aaaa`
    (type 28) carry an address; `Other` stands for every other record type.
   */
  datatype Rr = A(a: Ip) | Aaaa(aaaa: Ip) | Other(rrtype: OtherType)

  /** A DNS message, reduced to its answer section: the only part the handler reads. */
  datatype Msg = Msg(answer: seq<Rr>)

  /** What one forwarder produced: the message it wrote (nil or not), its code and its error. */
  datatype Reply = Reply(msg: Option<Msg>, code: int, err: Option<Error>)

  /**
    The geolocation database: for an address, either the ISO country code of
    its record (the empty string when the record has none) or a lookup error.
   */
  datatype Reader = Reader(lookup: Ip -> Result<string, Error>)

  /** The plugin instance, as far as the handler reads it. */
  datatype ChinaDns = ChinaDns(geoIp: Reader)

  /** The only ISO code that counts as domestic. */
  const Cn := "CN"

  /** The header type of a record. */
  function RrType(rr: Rr): (t: bv16)
    ensures rr.Other? <==> t != 1 && t != 28
  {
    match rr
    case A(_) => 1
    case Aaaa(_) => 28
    case Other(t) => t
  }

  /** The address a record contributes, if any: exactly A and AAAA records carry one. */
  function Address(rr: Rr): (r: Option<Ip>)
    ensures r.Some? <==> RrType(rr) == 1 || RrType(rr) == 28
  {
    match rr
    case A(ip) => Some(ip)
    case Aaaa(ip) => Some(ip)
    case Other(_) => None
  }

  /** The addresses of the A and AAAA records of `answers`, in order: at most one per record. */
  function Addresses(answers: seq<Rr>): (r: seq<Ip>)
    ensures |r| <= |answers|
  {
    if answers == [] then []
    else match Address(answers[0])
      case Some(ip) => [ip] + Addresses(answers[1..])
      case None => Addresses(answers[1..])
  }

  /** The scan goes past `ip`: its lookup succeeded with a code other than "CN". */
  ghost predicate Continues(g: Reader, ip: Ip) {
    g.lookup(ip).Success? && g.lookup(ip).value != Cn
  }

  /** The scan stops at `ip`: its lookup failed or gave exactly "CN". */
  ghost predicate Stops(g: Reader, ip: Ip) {
    g.lookup(ip).Failure? || g.lookup(ip) == Success(Cn)
  }

  /** Address `k` of `ips` looks up to exactly "CN" and no lookup before it failed. */
  ghost predicate DomesticAt(g: Reader, ips: seq<Ip>, k: int) {
    && 0 <= k < |ips|
    && g.lookup(ips[k]) == Success(Cn)
    && forall j :: 0 <= j < k ==> g.lookup(ips[j]).Success?
  }

  /** The reference verdict: some A/AAAA address is domestic in the sense of DomesticAt. */
  ghost predicate HasDomesticAddress(g: Reader, answers: seq<Rr>) {
    exists k :: DomesticAt(g, Addresses(answers), k)
  }

  /** Every extracted address comes from an A or AAAA record of the list. */
  lemma {:induction false} AddressesSound(answers: seq<Rr>)
    ensures forall k :: 0 <= k < |Addresses(answers)| ==>
      exists j :: 0 <= j < |answers| && Address(answers[j]) == Some(Addresses(answers)[k])
  {
    if answers != [] {
      var rest := Addresses(answers[1..]);
      AddressesSound(answers[1..]);
      var first := if Address(answers[0]).Some? then [Address(answers[0]).value] else [];
      assert Addresses(answers) == first + rest;
      forall k | 0 <= k < |Addresses(answers)|
        ensures exists j :: 0 <= j < |answers| && Address(answers[j]) == Some(Addresses(answers)[k])
      {
        if k < |first| {
          assert Address(answers[0]) == Some(Addresses(answers)[k]);
        } else {
          var j' :| 0 <= j' < |answers[1..]| && Address(answers[1..][j']) == Some(rest[k - |first|]);
          assert Address(answers[j' + 1]) == Some(Addresses(answers)[k]);
        }
      }
    } else {
      assert |Addresses(answers)| == 0;
    }
  }

  /** Every A or AAAA record of the list gives its address to the extracted list. */
  lemma {:induction false} AddressesComplete(answers: seq<Rr>)
    ensures forall j :: 0 <= j < |answers| && Address(answers[j]).Some? ==>
      Address(answers[j]).value in Addresses(answers)
  {
    if answers != [] {
      AddressesComplete(answers[1..]);
      var rest := Addresses(answers[1..]);
      assert forall ip :: ip in rest ==> ip in Addresses(answers);
      forall j | 0 <= j < |answers| && Address(answers[j]).Some?
        ensures Address(answers[j]).value in Addresses(answers)
      {
        if j > 0 {
          assert answers[1..][j - 1] == answers[j];
        }
      }
    }
  }

  lemma {:induction false} AddressesAppend(s: seq<Rr>, t: seq<Rr>)
    ensures Addresses(s + t) == Addresses(s) + Addresses(t)
  {
    if s == [] {
      assert s + t == t;
    } else {
      assert (s + t)[0] == s[0];
      assert (s + t)[1..] == s[1..] + t;
      AddressesAppend(s[1..], t);
    }
  }

  /** Records that are neither A nor AAAA never contribute an address. */
  lemma OtherRecordsIgnored(g: Reader, s: seq<Rr>, rr: Rr, t: seq<Rr>)
    requires rr.Other?
    ensures Addresses(s + [rr] + t) == Addresses(s + t)
    ensures HasDomesticAddress(g, s + [rr] + t) == HasDomesticAddress(g, s + t)
  {
    AddressesAppend(s + [rr], t);
    AddressesAppend(s, [rr]);
    AddressesAppend(s, t);
    assert Addresses([rr]) == [];
  }

  /** On the address list: after a failed lookup at `p`, no address is domestic. */
  lemma NoDomesticAfterFailure(g: Reader, ips: seq<Ip>, p: nat)
    requires p < |ips| && g.lookup(ips[p]).Failure?
    requires forall j :: 0 <= j < p ==> Continues(g, ips[j])
    ensures forall k :: !DomesticAt(g, ips, k)
  {
  }

  /**
    Fail-closed: when the lookup for the address of record `i` fails and every
    earlier A/AAAA record let the scan go on, the answer is not domestic,
    whatever the records after `i` would give.
   */
  lemma {:induction false} LookupErrorFailsClosed(g: Reader, answers: seq<Rr>, i: nat)
    requires i < |answers| && Address(answers[i]).Some? && g.lookup(Address(answers[i]).value).Failure?
    requires forall j :: 0 <= j < i && Address(answers[j]).Some? ==> Continues(g, Address(answers[j]).value)
    ensures !HasDomesticAddress(g, answers)
  {
    var ips := Addresses(answers);
    if i > 0 {
      LookupErrorFailsClosed(g, answers[1..], i - 1);
      if Address(answers[0]).Some? {
        var rest := Addresses(answers[1..]);
        assert ips == [Address(answers[0]).value] + rest;
        forall k | DomesticAt(g, ips, k) ensures false {
          assert k > 0;
          assert forall j :: 0 <= j < k - 1 ==> rest[j] == ips[j + 1];
          assert DomesticAt(g, rest, k - 1);
        }
      } else {
        assert ips == Addresses(answers[1..]);
      }
    } else {
      assert ips == [Address(answers[0]).value] + Addresses(answers[1..]);
      NoDomesticAfterFailure(g, ips, 0);
    }
  }

  /** Extending a prefix of the answers by one record adds that record's address, if any. */
  lemma AddressesSnoc(s: seq<Rr>, i: nat)
    requires i < |s|
    ensures Addresses(s[..i + 1]) == Addresses(s[..i]) + (if s[i].Other? then [] else [Address(s[i]).value])
  {
    assert s[..i + 1] == s[..i] + [s[i]];
    AddressesAppend(s[..i], [s[i]]);
  }

  /**
    The verdict once the scan stops: `consulted` are the addresses of the
    first `i` records, every one but the last let the scan go on, and the
    last one decides.
   */
  lemma StopVerdict(g: Reader, answers: seq<Rr>, i: nat, consulted: seq<Ip>)
    requires i <= |answers| && consulted == Addresses(answers[..i]) && consulted != []
    requires forall j :: 0 <= j < |consulted| - 1 ==> Continues(g, consulted[j])
    ensures consulted <= Addresses(answers)
    ensures g.lookup(consulted[|consulted| - 1]) == Success(Cn) ==> HasDomesticAddress(g, answers)
    ensures g.lookup(consulted[|consulted| - 1]).Failure? ==> !HasDomesticAddress(g, answers)
  {
    var p := |consulted| - 1;
    Split(answers, i);
    if g.lookup(consulted[p]) == Success(Cn) {
      assert DomesticAt(g, Addresses(answers), p);
    }
    if g.lookup(consulted[p]).Failure? {
      NoDomesticAfterFailure(g, Addresses(answers), p);
    }
  }

  /**
    isChina: scans the answer section in order, looks up the address of every
    A and AAAA record and stops at the first lookup that fails (not domestic)
    or gives exactly "CN" (domestic). `consulted` is the ghost trace of the
    addresses looked up.
   */
  method IsChina(c: ChinaDns, r: Msg) returns (china: bool, ghost consulted: seq<Ip>)
    ensures china <==> HasDomesticAddress(c.geoIp, r.answer)
    ensures consulted <= Addresses(r.answer)
    ensures forall j :: 0 <= j < |consulted| - 1 ==> Continues(c.geoIp, consulted[j])
    ensures |consulted| < |Addresses(r.answer)| ==> |consulted| > 0 && Stops(c.geoIp, consulted[|consulted| - 1])
  {
    var g := c.geoIp;
    consulted := [];
    for i := 0 to |r.answer|
      invariant consulted == Addresses(r.answer[..i])
      invariant forall j :: 0 <= j < |consulted| ==> Continues(g, consulted[j])
    {
      AddressesSnoc(r.answer, i);
      var ip: Ip;
      match r.answer[i] {
        case A(a) => ip := a;
        case Aaaa(aaaa) => ip := aaaa;
        case Other(_) => continue;
      }
      consulted := consulted + [ip];
      match g.lookup(ip) {
        case Failure(_) =>
          StopVerdict(g, r.answer, i + 1, consulted);
          return false, consulted;
        case Success(iso) =>
          if iso == Cn {
            StopVerdict(g, r.answer, i + 1, consulted);
            return true, consulted;
          }
      }
    }
    assert r.answer[..|r.answer|] == r.answer;
    return false, consulted;
  }

  /** The addresses of the answers split at record `i`. */
  lemma Split(s: seq<Rr>, i: nat)
    requires i <= |s|
    ensures Addresses(s) == Addresses(s[..i]) + Addresses(s[i..])
  {
    assert s == s[..i] + s[i..];
    AddressesAppend(s[..i], s[i..]);
  }

  /**
    The reply from the domestic forwarder is used when it has a message with
    a non-empty answer section that the classifier judges domestic.
   */
  ghost predicate CnPreferred(g: Reader, cn: Reply)
    ensures CnPreferred(g, cn) ==>
      && cn.msg.Some?
      && |Addresses(cn.msg.value.answer)| > 0
      && Cn in set ip | ip in Addresses(cn.msg.value.answer) && g.lookup(ip).Success? :: g.lookup(ip).value
  {
    cn.msg.Some? && |cn.msg.value.answer| > 0 && HasDomesticAddress(g, cn.msg.value.answer)
  }

  /**
    ServeDNS once both forwarders have replied: `written` is the message
    written to the client (None: nothing written), `code` and `err` are what
    the handler returns, and `consulted` is the ghost trace of geo lookups.
   */
  method ServeDns(c: ChinaDns, cnReply: Reply, fbReply: Reply)
    returns (written: Option<Msg>, code: int, err: Option<Error>, ghost consulted: seq<Ip>)
    ensures CnPreferred(c.geoIp, cnReply) ==>
      written == cnReply.msg && written.Some? && code == cnReply.code && err == cnReply.err
    ensures !CnPreferred(c.geoIp, cnReply) ==>
      written == fbReply.msg && code == fbReply.code && err == fbReply.err
    ensures cnReply.msg.None? || cnReply.msg.value.answer == [] ==> consulted == []
    ensures cnReply.msg.Some? ==> consulted <= Addresses(cnReply.msg.value.answer)
  {
    consulted := [];
    if cnReply.msg.Some? && |cnReply.msg.value.answer| > 0 {
      var china;
      china, consulted := IsChina(c, cnReply.msg.value);
      if china {
        return cnReply.msg, cnReply.code, cnReply.err, consulted;
      }
    }
    written := None;
    if fbReply.msg.Some? {
      written := fbReply.msg;
    }
    return written, fbReply.code, fbReply.err, consulted;
  }
}

=== FILE: setup.dfy ===
/**
  Configuration of the chinadns plugin (setup.go): the validation of the
  `chinadns` directives and the construction of the upstream proxies.

  The host's token stream is given already split into directives: each
  occurrence of `chinadns` is a `Directive` whose `args` are the tokens on its
  line and whose `block` holds one `Property` per line of its `{ }` block.
 */
module Setup {
  import opened Wrappers
  import Handler

  datatype Property = Property(name: string, args: seq<string>)

  datatype Directive = Directive(args: seq<string>, block: seq<Property>)

  datatype SetupError =
    | ArgErr                                          // wrong argument count
    | MultipleDatabases                               // "configuring multiple databases is not supported"
    | UnknownProperty(name: string)                   // "unknown property '<name>'"
    | UnsupportedProtocol(trans: string, host: string) // "'<trans>' is not supported as a destination protocol"
    | HostError(message: string)                      // the error of the host-list expansion
    | PluginError(plugin: string, message: string)    // the database could not be opened

  /** Expansion of upstream arguments into host strings (parse.HostPortOrFile; may read files). */
  type HostsFn = seq<string> -> Result<seq<string>, string>

  /** Split of a host string into its transport and its address (parse.Transport). */
  type TransportFn = string -> (string, string)

  /** Opening of the geolocation database at a path (maxminddb.Open). */
  type OpenFn = string -> Result<Handler.Reader, string>

  const Dns := "dns"
  const Tls := "tls"
  const Fallback := "fallback"
  const CnKey := "cn"
  const FbKey := "fb"
  const PluginName := "chinadns"

  /** The transports a proxy may use, looked up as a map: a missing key reads false. */
  const AllowedTransports: map<string, bool> := map[Dns := true, Tls := true]

  predicate Allowed(trans: string)
    ensures Allowed(trans) <==> trans == Dns || trans == Tls
  {
    trans in AllowedTransports && AllowedTransports[trans]
  }

  /** The TLS client configuration shared by the TLS proxies of one list. */
  class TlsConfig {
    /** Capacity of its LRU client session cache. */
    const sessionCacheSize: nat

    constructor (sessionCacheSize: nat)
      ensures this.sessionCacheSize == sessionCacheSize
    {
      this.sessionCacheSize := sessionCacheSize;
    }
  }

  /** An upstream proxy: its address, its transport and, once set, its TLS configuration. */
  class Proxy {
    const addr: string
    const trans: string
    var tlsConfig: TlsConfig?

    constructor (addr: string, trans: string)
      ensures this.addr == addr && this.trans == trans && tlsConfig == null
    {
      this.addr := addr;
      this.trans := trans;
      tlsConfig := null;
    }

    method SetTlsConfig(cfg: TlsConfig)
      modifies this
      ensures tlsConfig == cfg
    {
      tlsConfig := cfg;
    }
  }

  /** Index of the first host whose transport is not allowed, if any. */
  function FirstUnsupported(hosts: seq<string>, transport: TransportFn): (r: Option<nat>)
    ensures r.None? <==> forall k :: 0 <= k < |hosts| ==> Allowed(transport(hosts[k]).0)
    ensures r.Some? ==>
      && r.value < |hosts|
      && !Allowed(transport(hosts[r.value]).0)
      && forall k :: 0 <= k < r.value ==> Allowed(transport(hosts[k]).0)
  {
    if hosts == [] then None
    else if !Allowed(transport(hosts[0]).0) then Some(0)
    else match FirstUnsupported(hosts[1..], transport)
      case None => None
      case Some(k) => Some(k + 1)
  }

  /** The error parseProxy reports for the upstream arguments `to`, or None when it succeeds. */
  function ProxyError(to: seq<string>, hostPortOrFile: HostsFn, transport: TransportFn): (r: Option<SetupError>)
    ensures r.None? <==>
      && |to| > 0
      && hostPortOrFile(to).Success?
      && forall k :: 0 <= k < |hostPortOrFile(to).value| ==> Allowed(transport(hostPortOrFile(to).value[k]).0)
    ensures r.Some? && r.value.UnsupportedProtocol? ==> !Allowed(r.value.trans)
  {
    if |to| == 0 then Some(ArgErr)
    else match hostPortOrFile(to)
      case Failure(e) => Some(HostError(e))
      case Success(hosts) =>
        match FirstUnsupported(hosts, transport)
        case None => None
        case Some(k) => Some(UnsupportedProtocol(transport(hosts[k]).0, hosts[k]))
  }

  /**
    `ps` holds one proxy per host, in order, with the host's transport and
    address; exactly the TLS proxies carry a TLS configuration, all of them
    the same object, sized for the whole host list.
   */
  ghost predicate ProxiesFor(ps: seq<Proxy>, hosts: seq<string>, transport: TransportFn)
    reads ps
  {
    && |ps| == |hosts|
    && (forall k :: 0 <= k < |ps| ==>
          ps[k].addr == transport(hosts[k]).1 && ps[k].trans == transport(hosts[k]).0)
    && (forall k :: 0 <= k < |ps| ==> (ps[k].tlsConfig != null <==> ps[k].trans == Tls))
    && (forall k :: 0 <= k < |ps| && ps[k].tlsConfig != null ==> ps[k].tlsConfig.sessionCacheSize == |hosts|)
    && (forall k, m :: 0 <= k < |ps| && 0 <= m < |ps| && ps[k].trans == Tls && ps[m].trans == Tls ==>
          ps[k].tlsConfig == ps[m].tlsConfig)
  }

  /** `ps` is what parseProxy builds from the upstream arguments `to`. */
  ghost predicate BuiltFrom(ps: seq<Proxy>, to: seq<string>, hostPortOrFile: HostsFn, transport: TransportFn)
    reads ps
  {
    hostPortOrFile(to).Success? && ProxiesFor(ps, hostPortOrFile(to).value, transport)
  }

  /**
    parseProxy: rejects an empty argument list, expands the arguments into
    hosts and builds one proxy per host, failing on the first host whose
    transport is neither "dns" nor "tls".
   */
  method ParseProxy(to: seq<string>, hostPortOrFile: HostsFn, transport: TransportFn)
    returns (r: Result<seq<Proxy>, SetupError>)
    ensures r.Failure? <==> ProxyError(to, hostPortOrFile, transport).Some?
    ensures r.Failure? ==> r.error == ProxyError(to, hostPortOrFile, transport).value
    ensures r.Success? ==> BuiltFrom(r.value, to, hostPortOrFile, transport)
  {
    if |to| == 0 {
      return Failure(ArgErr);
    }
    var toHosts: seq<string>;
    match hostPortOrFile(to) {
      case Failure(e) => return Failure(HostError(e));
      case Success(hosts) => toHosts := hosts;
    }
    var proxies: seq<Proxy> := [];
    var tlsConfig := new TlsConfig(|toHosts|);
    for i := 0 to |toHosts|
      invariant |proxies| == i
      invariant forall k :: 0 <= k < i ==> Allowed(transport(toHosts[k]).0)
      invariant forall k :: 0 <= k < i ==>
        && proxies[k].addr == transport(toHosts[k]).1
        && proxies[k].trans == transport(toHosts[k]).0
        && proxies[k].tlsConfig == (if proxies[k].trans == Tls then tlsConfig else null)
    {
      var (trans, h) := transport(toHosts[i]);
      if !Allowed(trans) {
        assert FirstUnsupported(toHosts, transport) == Some(i);
        return Failure(UnsupportedProtocol(trans, toHosts[i]));
      }
      var p := new Proxy(h, trans);
      if trans == Tls {
        p.SetTlsConfig(tlsConfig);
      }
      proxies := proxies + [p];
    }
    return Success(proxies);
  }

  /** parseBlock on one property line: the fallback upstream arguments, or the error. */
  function ParseProperty(p: Property, hostPortOrFile: HostsFn, transport: TransportFn): (r: Result<seq<string>, SetupError>)
    ensures r.Success? <==> p.name == Fallback && ProxyError(p.args, hostPortOrFile, transport).None?
    ensures r.Success? ==> r.value == p.args && |r.value| > 0
  {
    if p.name != Fallback then Failure(UnknownProperty(p.name))
    else match ProxyError(p.args, hostPortOrFile, transport)
      case Some(e) => Failure(e)
      case None => Success(p.args)
  }

  /**
    The properties of one block, in order, starting from the fallback
    arguments `fb` recorded so far: the first error, or the fallback
    arguments recorded at the end (each fallback line replaces the previous).
   */
  function ParseProperties(props: seq<Property>, fb: Option<seq<string>>, hostPortOrFile: HostsFn, transport: TransportFn)
    : (r: Result<Option<seq<string>>, SetupError>)
    ensures r.Success? ==> (r.value.None? <==> props == [] && fb.None?)
    ensures r.Success? && r.value.Some? && r.value != fb ==> |r.value.value| > 0
    decreases |props|
  {
    if props == [] then Success(fb)
    else match ParseProperty(props[0], hostPortOrFile, transport)
      case Failure(e) => Failure(e)
      case Success(to) => ParseProperties(props[1..], Some(to), hostPortOrFile, transport)
  }

  /**
    A block is accepted only when every line is a valid "fallback" line, and
    then the last line's arguments are the fallback list (the list recorded
    before the block when the block is empty).
   */
  lemma {:induction false} BlockAccepted(props: seq<Property>, fb: Option<seq<string>>, hostPortOrFile: HostsFn, transport: TransportFn)
    requires ParseProperties(props, fb, hostPortOrFile, transport).Success?
    ensures forall k :: 0 <= k < |props| ==>
      props[k].name == Fallback && ProxyError(props[k].args, hostPortOrFile, transport).None?
    ensures ParseProperties(props, fb, hostPortOrFile, transport).value
         == if props == [] then fb else Some(props[|props| - 1].args)
  {
    if props != [] {
      BlockAccepted(props[1..], Some(props[0].args), hostPortOrFile, transport);
    }
  }

  /** Conversely, a block of valid "fallback" lines only is accepted. */
  lemma {:induction false} BlockAcceptedConverse(props: seq<Property>, fb: Option<seq<string>>,
                                                 hostPortOrFile: HostsFn, transport: TransportFn)
    requires forall k :: 0 <= k < |props| ==>
      props[k].name == Fallback && ProxyError(props[k].args, hostPortOrFile, transport).None?
    ensures ParseProperties(props, fb, hostPortOrFile, transport).Success?
  {
    if props != [] {
      assert forall k :: 0 <= k < |props[1..]| ==> props[1..][k] == props[k + 1];
      BlockAcceptedConverse(props[1..], Some(props[0].args), hostPortOrFile, transport);
    }
  }

  /** What the directives configure: the database path and the cn and fallback upstream arguments. */
  datatype Config = Config(dbPath: string, cn: Option<seq<string>>, fb: Option<seq<string>>)

  const NoConfig := Config("", None, None)

  /**
    The directives, in order, starting from the configuration `acc` recorded
    so far: the first error, or the configuration recorded at the end.
   */
  function ParseDirectives(ds: seq<Directive>, acc: Config, hostPortOrFile: HostsFn, transport: TransportFn)
    : (r: Result<Config, SetupError>)
    ensures r.Success? && ds != [] ==> acc.dbPath == "" && r.value.cn.Some? && |r.value.cn.value| > 0
    ensures r.Success? && ds == [] ==> r.value == acc
    decreases |ds|
  {
    if ds == [] then Success(acc)
    else if |ds[0].args| == 0 then Failure(ArgErr)
    else if acc.dbPath != "" then Failure(MultipleDatabases)
    else match ProxyError(ds[0].args[1..], hostPortOrFile, transport)
      case Some(e) => Failure(e)
      case None =>
        match ParseProperties(ds[0].block, acc.fb, hostPortOrFile, transport)
        case Failure(e) => Failure(e)
        case Success(fb) =>
          ParseDirectives(ds[1..], Config(ds[0].args[0], Some(ds[0].args[1..]), fb), hostPortOrFile, transport)
  }

  /** The directives are processed one at a time: the first one, then the rest from what it recorded. */
  lemma DirectivesStep(ds: seq<Directive>, acc: Config, hostPortOrFile: HostsFn, transport: TransportFn)
    requires ds != []
    ensures ParseDirectives(ds, acc, hostPortOrFile, transport)
         == match ParseDirectives([ds[0]], acc, hostPortOrFile, transport)
            case Failure(e) => Failure(e)
            case Success(cfg) => ParseDirectives(ds[1..], cfg, hostPortOrFile, transport)
  {
    assert [ds[0]][0] == ds[0] && [ds[0]][1..] == [];
  }

  /**
    The fallback list recorded after the directives `ds`, starting from `fb`:
    the arguments of the last fallback line over all their blocks, or `fb`
    when no block has a line.
   */
  function LastFallback(ds: seq<Directive>, fb: Option<seq<string>>): Option<seq<string>>
    decreases |ds|
  {
    if ds == [] then fb
    else LastFallback(ds[1..], if ds[0].block == [] then fb else Some(ds[0].block[|ds[0].block| - 1].args))
  }

  /**
    An accepted configuration: every directive has a database argument and a
    valid cn upstream list, every block line is a valid fallback line, every
    directive but the last names the empty database path, and the path and
    cn list recorded are those of the last directive.
   */
  lemma {:induction false} DirectivesAccepted(ds: seq<Directive>, acc: Config, hostPortOrFile: HostsFn, transport: TransportFn)
    requires ParseDirectives(ds, acc, hostPortOrFile, transport).Success?
    ensures forall k :: 0 <= k < |ds| ==>
      |ds[k].args| > 0 && ProxyError(ds[k].args[1..], hostPortOrFile, transport).None?
    ensures forall k, m :: 0 <= k < |ds| && 0 <= m < |ds[k].block| ==> ds[k].block[m].name == Fallback
    ensures forall k, m :: 0 <= k < |ds| && 0 <= m < |ds[k].block| ==>
      ProxyError(ds[k].block[m].args, hostPortOrFile, transport).None?
    ensures forall k :: 0 <= k < |ds| - 1 ==> ds[k].args[0] == ""
    ensures ds != [] ==> acc.dbPath == ""
    ensures ds == [] ==> ParseDirectives(ds, acc, hostPortOrFile, transport).value == acc
    ensures ParseDirectives(ds, acc, hostPortOrFile, transport).value.fb == LastFallback(ds, acc.fb)
    ensures ds != [] ==>
      && ParseDirectives(ds, acc, hostPortOrFile, transport).value.dbPath == ds[|ds| - 1].args[0]
      && ParseDirectives(ds, acc, hostPortOrFile, transport).value.cn == Some(ds[|ds| - 1].args[1..])
  {
    if ds != [] {
      var d := ds[0];
      BlockAccepted(d.block, acc.fb, hostPortOrFile, transport);
      var fb := ParseProperties(d.block, acc.fb, hostPortOrFile, transport).value;
      DirectivesAccepted(ds[1..], Config(d.args[0], Some(d.args[1..]), fb), hostPortOrFile, transport);
    }
  }

  /**
    Conversely, directives that each have an argument, a valid cn upstream
    list and a block of valid fallback lines, all but the last naming the
    empty database path, are accepted when no database path is recorded yet
    (an empty list is accepted from any configuration).
   */
  lemma {:induction false} DirectivesAcceptedConverse(ds: seq<Directive>, acc: Config,
                                                      hostPortOrFile: HostsFn, transport: TransportFn)
    requires forall k :: 0 <= k < |ds| ==>
      |ds[k].args| > 0 && ProxyError(ds[k].args[1..], hostPortOrFile, transport).None?
    requires forall k, m :: 0 <= k < |ds| && 0 <= m < |ds[k].block| ==>
      ds[k].block[m].name == Fallback && ProxyError(ds[k].block[m].args, hostPortOrFile, transport).None?
    requires forall k :: 0 <= k < |ds| - 1 ==> ds[k].args[0] == ""
    requires ds != [] ==> acc.dbPath == ""
    ensures ParseDirectives(ds, acc, hostPortOrFile, transport).Success?
  {
    if ds != [] {
      var d := ds[0];
      BlockAcceptedConverse(d.block, acc.fb, hostPortOrFile, transport);
      var fb := ParseProperties(d.block, acc.fb, hostPortOrFile, transport).value;
      assert forall k :: 0 <= k < |ds[1..]| ==> ds[1..][k] == ds[k + 1];
      if |ds| > 1 {
        assert d.args[0] == "";
      }
      DirectivesAcceptedConverse(ds[1..], Config(d.args[0], Some(d.args[1..]), fb), hostPortOrFile, transport);
    }
  }

  /**
    Once a directive has recorded a non-empty database path, a further
    directive that names a database is rejected with "configuring multiple
    databases is not supported" (one without any argument is an argument
    error instead, which is checked first).
   */
  lemma SecondDatabaseRejected(ds: seq<Directive>, hostPortOrFile: HostsFn, transport: TransportFn)
    requires |ds| >= 2 && |ds[0].args| > 0 && ds[0].args[0] != "" && |ds[1].args| > 0
    requires ParseDirectives([ds[0]], NoConfig, hostPortOrFile, transport).Success?
    ensures ParseDirectives(ds, NoConfig, hostPortOrFile, transport) == Failure(MultipleDatabases)
  {
    DirectivesStep(ds, NoConfig, hostPortOrFile, transport);
    DirectivesAccepted([ds[0]], NoConfig, hostPortOrFile, transport);
  }

  /** The first block line with a name other than "fallback" is reported as an unknown property. */
  lemma {:induction false} UnknownPropertyRejected(props: seq<Property>, fb: Option<seq<string>>,
                                                   hostPortOrFile: HostsFn, transport: TransportFn, k: nat)
    requires k < |props| && props[k].name != Fallback
    requires forall j :: 0 <= j < k ==> ParseProperty(props[j], hostPortOrFile, transport).Success?
    ensures ParseProperties(props, fb, hostPortOrFile, transport) == Failure(UnknownProperty(props[k].name))
  {
    if k > 0 {
      UnknownPropertyRejected(props[1..], Some(props[0].args), hostPortOrFile, transport, k - 1);
    }
  }

  /** The map `m` has the same entry for `key` as `before`. */
  ghost predicate SameAt(m: map<string, seq<Proxy>>, before: map<string, seq<Proxy>>, key: string) {
    (key in m <==> key in before) && (key in m ==> m[key] == before[key])
  }

  /** Writing a key inside `keys` leaves the entries outside `keys` as they were. */
  lemma UpdateInside(m: map<string, seq<Proxy>>, before: map<string, seq<Proxy>>, keys: set<string>, k: string, v: seq<Proxy>)
    requires k in keys && m - keys == before - keys
    ensures m[k := v] - keys == before - keys
  {
    assert m[k := v] - keys == m - keys;
  }

  /** Two maps that agree outside `small` agree outside any larger set of keys. */
  lemma AgreeOutside(m: map<string, seq<Proxy>>, before: map<string, seq<Proxy>>, small: set<string>, big: set<string>)
    requires small <= big && m - small == before - small
    ensures m - big == before - big
  {
    assert m - big == (m - small) - big;
    assert before - big == (before - small) - big;
  }

  /** The plugin's configuration controller: the directives and the key-value store that `c.Set` writes. */
  class Controller {
    const directives: seq<Directive>
    var store: map<string, seq<Proxy>>

    constructor (directives: seq<Directive>)
      ensures this.directives == directives && store == map[]
    {
      this.directives := directives;
      store := map[];
    }

    /**
      parseBlock: a "fallback" line stores its proxies under "fb"; any other
      property name is an error.
     */
    method ParseBlock(p: Property, hostPortOrFile: HostsFn, transport: TransportFn) returns (err: Option<SetupError>)
      modifies this
      ensures ParseProperty(p, hostPortOrFile, transport).Failure? ==>
        err == Some(ParseProperty(p, hostPortOrFile, transport).error) && store == old(store)
      ensures ParseProperty(p, hostPortOrFile, transport).Success? ==>
        && err == None
        && FbKey in store
        && BuiltFrom(store[FbKey], p.args, hostPortOrFile, transport)
        && store == old(store)[FbKey := store[FbKey]]
    {
      if p.name == Fallback {
        var proxies := ParseProxy(p.args, hostPortOrFile, transport);
        if proxies.Failure? {
          return Some(proxies.error);
        }
        store := store[FbKey := proxies.value];
        return None;
      } else {
        return Some(UnknownProperty(p.name));
      }
    }

    /**
      The `for c.NextBlock()` loop of parseChinaDNS: parseBlock on each line of
      one directive's block, stopping at the first error. `fb0` is the
      fallback list recorded before the block and `cn` the cn upstream
      arguments whose proxies are already stored.
     */
    method ParseBlockLines(block: seq<Property>, ghost fb0: Option<seq<string>>, ghost cn: seq<string>,
                           hostPortOrFile: HostsFn, transport: TransportFn)
      returns (err: Option<SetupError>)
      requires CnKey in store && BuiltFrom(store[CnKey], cn, hostPortOrFile, transport)
      requires fb0.Some? ==> FbKey in store && BuiltFrom(store[FbKey], fb0.value, hostPortOrFile, transport)
      modifies this
      ensures ParseProperties(block, fb0, hostPortOrFile, transport).Failure? ==>
        err == Some(ParseProperties(block, fb0, hostPortOrFile, transport).error)
      ensures ParseProperties(block, fb0, hostPortOrFile, transport).Success? ==>
        var fb := ParseProperties(block, fb0, hostPortOrFile, transport).value;
        && err == None
        && (fb.Some? ==> FbKey in store && BuiltFrom(store[FbKey], fb.value, hostPortOrFile, transport))
        && (fb.None? ==> SameAt(store, old(store), FbKey))
      ensures CnKey in store && BuiltFrom(store[CnKey], cn, hostPortOrFile, transport)
      ensures store - {FbKey} == old(store) - {FbKey}
      ensures block == [] ==> store == old(store)
    {
      ghost var fb := fb0;
      for j := 0 to |block|
        invariant ParseProperties(block, fb0, hostPortOrFile, transport)
               == ParseProperties(block[j..], fb, hostPortOrFile, transport)
        invariant CnKey in store && BuiltFrom(store[CnKey], cn, hostPortOrFile, transport)
        invariant fb.Some? ==> FbKey in store && BuiltFrom(store[FbKey], fb.value, hostPortOrFile, transport)
        invariant fb.None? ==> SameAt(store, old(store), FbKey)
        invariant store - {FbKey} == old(store) - {FbKey}
        invariant j == 0 ==> store == old(store)
      {
        assert block[j..][0] == block[j] && block[j..][1..] == block[j + 1..];
        err := ParseBlock(block[j], hostPortOrFile, transport);
        if err.Some? {
          return err;
        }
        fb := Some(block[j].args);
      }
      assert block[|block|..] == [];
      return None;
    }

    /**
      One pass of the `for c.Next()` loop of parseChinaDNS on directive `d`,
      with `acc` the configuration recorded by the earlier passes: the
      directive needs an argument, no database may be recorded yet, the rest
      of the line is the cn upstream list (stored under "cn") and the block
      lines follow. `path` is the database path the pass records.
     */
    method ParseDirective(d: Directive, dbPath: string, ghost acc: Config,
                          hostPortOrFile: HostsFn, transport: TransportFn)
      returns (err: Option<SetupError>, path: string)
      requires dbPath == acc.dbPath
      requires acc.fb.Some? ==> FbKey in store && BuiltFrom(store[FbKey], acc.fb.value, hostPortOrFile, transport)
      modifies this
      ensures ParseDirectives([d], acc, hostPortOrFile, transport).Failure? ==>
        err == Some(ParseDirectives([d], acc, hostPortOrFile, transport).error)
      ensures ParseDirectives([d], acc, hostPortOrFile, transport).Success? ==>
        var cfg := ParseDirectives([d], acc, hostPortOrFile, transport).value;
        && err == None
        && path == cfg.dbPath
        && cfg.cn.Some?
        && CnKey in store && BuiltFrom(store[CnKey], cfg.cn.value, hostPortOrFile, transport)
        && (cfg.fb.Some? ==> FbKey in store && BuiltFrom(store[FbKey], cfg.fb.value, hostPortOrFile, transport))
        && (cfg.fb.None? ==> acc.fb.None? && SameAt(store, old(store), FbKey))
        && (d.block == [] ==> SameAt(store, old(store), FbKey))
      ensures store - {CnKey, FbKey} == old(store) - {CnKey, FbKey}
    {
      path := dbPath;
      if |d.args| == 0 {
        return Some(ArgErr), path;
      }
      if dbPath != "" {
        return Some(MultipleDatabases), path;
      }
      path := d.args[0];
      var proxies := ParseProxy(d.args[1..], hostPortOrFile, transport);
      if proxies.Failure? {
        return Some(proxies.error), path;
      }
      UpdateInside(store, old(store), {CnKey, FbKey}, CnKey, proxies.value);
      store := store[CnKey := proxies.value];
      assert SameAt(store, old(store), FbKey);
      ghost var beforeBlock := store;
      err := ParseBlockLines(d.block, acc.fb, d.args[1..], hostPortOrFile, transport);
      AgreeOutside(store, beforeBlock, {FbKey}, {CnKey, FbKey});
      if err.Some? {
        return err, path;
      }
      BlockAccepted(d.block, acc.fb, hostPortOrFile, transport);
      assert [d][1..] == [];
    }

    /**
      parseChinaDNS: the passes over the directives, then the database is
      opened at the recorded path.
     */
    method ParseChinaDns(hostPortOrFile: HostsFn, transport: TransportFn, open: OpenFn)
      returns (r: Result<Handler.ChinaDns, SetupError>)
      modifies this
      ensures ParseDirectives(directives, NoConfig, hostPortOrFile, transport).Failure? ==>
        r == Failure(ParseDirectives(directives, NoConfig, hostPortOrFile, transport).error)
      ensures ParseDirectives(directives, NoConfig, hostPortOrFile, transport).Success? ==>
        var cfg := ParseDirectives(directives, NoConfig, hostPortOrFile, transport).value;
        && (open(cfg.dbPath).Failure? ==> r == Failure(PluginError(PluginName, open(cfg.dbPath).error)))
        && (open(cfg.dbPath).Success? ==> r == Success(Handler.ChinaDns(open(cfg.dbPath).value)))
        && (cfg.cn.Some? ==> CnKey in store && BuiltFrom(store[CnKey], cfg.cn.value, hostPortOrFile, transport))
        && (cfg.cn.None? ==> SameAt(store, old(store), CnKey))
        && (cfg.fb.Some? ==> FbKey in store && BuiltFrom(store[FbKey], cfg.fb.value, hostPortOrFile, transport))
        && (cfg.fb.None? ==> SameAt(store, old(store), FbKey))
      ensures store - {CnKey, FbKey} == old(store) - {CnKey, FbKey}
    {
      var dbPath := "";
      ghost var cfg := NoConfig;
      for i := 0 to |directives|
        invariant ParseDirectives(directives, NoConfig, hostPortOrFile, transport)
               == ParseDirectives(directives[i..], cfg, hostPortOrFile, transport)
        invariant dbPath == cfg.dbPath
        invariant cfg.cn.Some? ==> CnKey in store && BuiltFrom(store[CnKey], cfg.cn.value, hostPortOrFile, transport)
        invariant cfg.cn.None? ==> SameAt(store, old(store), CnKey)
        invariant cfg.fb.Some? ==> FbKey in store && BuiltFrom(store[FbKey], cfg.fb.value, hostPortOrFile, transport)
        invariant cfg.fb.None? ==> SameAt(store, old(store), FbKey)
        invariant store - {CnKey, FbKey} == old(store) - {CnKey, FbKey}
      {
        DirectivesStep(directives[i..], cfg, hostPortOrFile, transport);
        assert directives[i..][0] == directives[i] && directives[i..][1..] == directives[i + 1..];
        ghost var beforePass := store;
        var err;
        err, dbPath := ParseDirective(directives[i], dbPath, cfg, hostPortOrFile, transport);
        if err.Some? {
          return Failure(err.value);
        }
        ghost var next := ParseDirectives([directives[i]], cfg, hostPortOrFile, transport).value;
        assert next.fb.None? ==> SameAt(store, beforePass, FbKey) && SameAt(beforePass, old(store), FbKey);
        cfg := next;
      }
      assert directives[|directives|..] == [];
      match open(dbPath) {
        case Failure(e) => return Failure(PluginError(PluginName, e));
        case Success(db) => return Success(Handler.ChinaDns(db));
      }
    }
  }
}

=== FILE: wrappers.dfy ===
/** The Option and Result types shared by the other modules. */
module Wrappers {

  /** A value that may be absent: Go's nil pointer or nil error. */
  datatype Option<+T> = None | Some(value: T)

  /** A value or an error, the model of Go's `(value, error)` return pairs. */
  datatype Result<+T, +E> = Success(value: T) | Failure(error: E)
}
